=== FILE: README.md ===
# Guild music player: a Dafny model

This project models the per-guild music player of the Shuwy chat bot (`cogs/Music.py`), as pure
transitions over an immutable player record, and proves properties of them. The player keeps a
FIFO queue of tracks, a DJ, the `waiting` and `updating` flags, a volume, an equalizer preset and
five vote sets (pause, resume, skip, shuffle, stop). The cog's commands act on it, some of them
behind a vote gate, as do the audio node's track-end events and the voice-state listener.

Each command, each node event and each voice-state update is one atomic step. Two parts of the
player are split into separate steps because other steps can observe them in between: the
resumption of a `do_next` suspended on an empty queue (`Session.AwaitNext`) and the end of a
controller refresh (`Controller.EndRefresh`). A step is a function from the player it finds to an
`Outcome`:

- `Continue(player, effects)`: the new player and the calls the step makes, in order. A call is
  a request to the audio node (join, search, play, pause, stop, volume, equalizer, destroy) or a
  chat action on the controller message.
- `Declined(reason)`: the player is left exactly as it was.
- `TornDown(effects)`: the player was destroyed and leaves the registry.

The modules follow the source:

- `Queries`: the query normalisation in `play`.
- `Arith`: exact ceiling division for the cog's `math.ceil` of a quotient.
- `Votes`: the vote sets, the `required` quorum and the gate.
- `Volume`: the range check and the ten-point steps.
- `Equalizer`: the preset table.
- `Shuffle`: `random.shuffle`, with its random draws as an input.
- `Members`: voice-channel membership and DJ candidates.
- `Session`: the player record, `do_next` and `teardown`.
- `Controller`: `reaction_check`, the button table and the `invoke_controller` decision.
- `Commands`: the cog's commands.
- `Machine`: all commands as one step function, and the shared gate lemmas.
- `Registry`: the guild-to-player map and `on_voice_state_update`.
- `Scenarios`: concrete runs.

The environment supplies these inputs:

- the caller (identity and kick-members permission);
- the members of the bound voice channel;
- the caller's own voice channel;
- the node's search answer;
- whether the 300-second wait timed out;
- the random draws of a shuffle;
- the channel's recent message ids;
- the id of a newly posted controller message.

In these places the model follows the code, which differs from what one might expect of such a player:

- **Stop quorum.** The stop carve-out applies when the channel has three members in total,
  bots included (`len(channel.members) - 1 == 2`). It does not count non-bot members only.
  The general quorum counts bots too.
- **Last human leaves.** When the DJ leaves and no human is left in the channel, the DJ stays
  as it was. Nothing marks the player as orphaned.
- **Who becomes DJ.** The DJ is set when the player is created (the author of its first command),
  not by `connect`.
- **Controller buttons.** The eighth button shows the queue; there is no "mark favourite" button.
- **`swap_dj` declines.** A swap to the current DJ, or one in a channel of two or fewer members,
  is declined. With no target and no eligible member, nothing happens.

## Model

| member | source | states |
|---|---|---|
| Queries.LeadingAngles | cogs/Music.py:470 | the count of leading `<`/`>` covers only brackets and stops at the first other character |
| Queries.TrailingAngles | cogs/Music.py:470 | the count of trailing `<`/`>` covers only brackets and stops at the last other character |
| Queries.Strip | cogs/Music.py:470 | `strip('<>')` yields a slice of the query reached by dropping only brackets at either end, and the slice neither starts nor ends with a bracket |
| Queries.StripIdempotent | cogs/Music.py:470 | stripping an already stripped query changes nothing |
| Queries.Normalise | cogs/Music.py:470-472 | the search query is a URL exactly when the stripped query is one, and then equals it; otherwise it starts with `ytsearch:` |
| Queries.NormaliseRoundTrip | cogs/Music.py:470-472 | the stripped user query can always be recovered from the search query, so normalisation loses nothing but the brackets |
| Queries.UrlPassesThrough | cogs/Music.py:15 | a query matching `https?://` plus one non-newline character, not ending in a bracket, reaches the node unchanged |
| Votes.Required | cogs/Music.py:426-437 | the quorum is the least r with 5r >= 2(n-1), i.e. ceil((n-1)/2.5) for n channel members; a stop vote among exactly 3 members needs 2 |
| Votes.RequiredAtMostOthers | cogs/Music.py:431 | in a channel of two or more members the quorum never exceeds the number of other members |
| Votes.RequiredFive | cogs/Music.py:431 | five members need two votes for every action |
| Votes.CastVote | cogs/Music.py:512-522 | when the gate holds, the caller was not privileged, is now among the voters and the voters are still below quorum; when it fires the voters are cleared |
| Votes.RepeatVoteIsIdle | cogs/Music.py:513 | a second vote from the same caller, below quorum, leaves the gate exactly as the first left it |
| Votes.VoteCountsOnce | cogs/Music.py:513-515 | a vote raises the count by one for a new voter and by nothing for a repeat voter |
| Votes.FiresAtQuorum | cogs/Music.py:515 | a non-privileged vote fires exactly when the voters including the caller reach the quorum |
| Volume.AcceptedBounds | cogs/Music.py:625 | the volume command rejects 0 and 101 and accepts 1 and 100 |
| Volume.StepUp | cogs/Music.py:673-676 | the + button gives the least multiple of ten not below v + 10, capped at 100: for v below 90 a multiple of ten in [v + 10, v + 20), from 90 on exactly 100 |
| Volume.StepDown | cogs/Music.py:691-694 | the - button gives the least multiple of ten not below v - 10, floored at 0: for v above 10 a multiple of ten in [v - 10, v), at 10 or below exactly 0 |
| Volume.StepDownUndoesStepUp | cogs/Music.py:673-694 | on the ten-point grid below 100, one step up then one down returns to the start |
| Volume.StepUpUndoesStepDown | cogs/Music.py:673-694 | on the ten-point grid above 0, one step down then one up returns to the start |
| Equalizer.Lower | cogs/Music.py:718 | the lower-cased name has the input's length and no ASCII capital; every other character is kept and each capital becomes its small letter |
| Equalizer.LowerIdempotent | cogs/Music.py:718 | lower-casing an already lower-cased name changes nothing |
| Equalizer.Parse | cogs/Music.py:713-720 | a name is accepted only if it lower-cases to a preset's name, and then yields that preset; otherwise it matches no preset |
| Equalizer.ParseName | cogs/Music.py:713-716 | every preset is found under its own name |
| Equalizer.ParseIgnoresCase | cogs/Music.py:718 | a name and its lower-cased form select the same preset |
| Shuffle.FisherYates | cogs/Music.py:650 | the swap loop keeps the queue's length and its multiset of tracks |
| Shuffle.Shuffled | cogs/Music.py:650 | a shuffled queue is a permutation of the queue, whatever the random draws |
| Members.FirstEligibleIndex | cogs/Music.py:792-796 | the first member in iteration order who is a human other than the excluded one; every member before it is a bot or the excluded member |
| Members.FirstEligible | cogs/Music.py:367-372 | there is no candidate exactly when every member is a bot or the excluded member; a candidate is in the channel and is not the excluded member |
| Members.FirstEligibleIsFirst | cogs/Music.py:792-796 | when any member is eligible, the chosen one is a human placed no later than that member |
| Session.NewPlayer | cogs/Music.py:38-55 | a new player has the command's author as DJ, the command's text channel as home, an empty queue, no current track, no votes, `waiting`, `updating` and `paused` down, no controller, full volume and the flat preset, and is not connected |
| Session.Teardown | cogs/Music.py:147-160 | teardown always destroys the player, as its last call, and deletes a message exactly when it is the live controller's |
| Session.TeardownAsWritten | cogs/Music.py:150-158 | with no controller, teardown as written stops before destroying anything and the player stays |
| Session.TeardownWithoutController | cogs/Music.py:150-158 | a connected player with no controller is kept by the as-written teardown but removed by the corrected one |
| Session.ClearBallots | cogs/Music.py:61-66 | before a new track all five vote sets are empty and nothing else changes |
| Session.AwaitNext | cogs/Music.py:68-77 | a queued track is taken from the front, becomes current and clears `waiting`, and nothing else changes; an empty queue runs the teardown on timeout (deleting the live controller, then destroying the player) and otherwise keeps waiting unchanged |
| Session.DoNext | cogs/Music.py:57-80 | nothing while playing or waiting; otherwise all votes are cleared, the head of the queue plays next, and an empty queue runs the teardown exactly when the wait times out; starting a track or beginning to wait changes only the current track, the queue, `waiting` and the votes |
| Session.OnTrackEnd | cogs/Music.py:347-351 | an end, stuck or exception event on a player that is not already waiting starts the queue's head with all votes cleared, or with an empty queue begins waiting; only the current track, the queue, `waiting` and the votes change, and it never tears down |
| Controller.ButtonFor | cogs/Music.py:198-281 | an emoji maps to a button only if it is that button's registered emoji |
| Controller.ButtonForEmoji | cogs/Music.py:198-281 | every button is reached from its own emoji, so the table is one-to-one |
| Controller.ReactionCheck | cogs/Music.py:180-193 | an accepted reaction is an addition, by a known human in the voice channel, on the live controller, with a button emoji |
| Controller.ListenerPressAccepted | cogs/Music.py:180-193 | a human listener's press of any button on the live controller is accepted |
| Controller.IsPositionFresh | cogs/Music.py:135-145 | the controller is fresh exactly when its message is among the five most recent messages |
| Controller.Scan | cogs/Music.py:139-141 | the search finds the message exactly when it occurs within the first `limit` entries |
| Controller.BeginRefresh | cogs/Music.py:85-107 | a refresh is dropped while one is in flight; otherwise it creates a controller if none, recreates it (deleting the old one) if it scrolled away, and edits it in place if fresh; each case makes exactly its post, delete or edit calls |
| Controller.RefreshRoundTrip | cogs/Music.py:85-109 | a refresh that goes ahead, once finished, changes nothing but the controller, which is then live, and a new refresh is no longer dropped |
| Controller.RefreshExcludesRefresh | cogs/Music.py:85-109 | a refresh started during another is dropped with no effect, and after the first ends a new one goes ahead with a live controller |
| Commands.BeforeInvoke | cogs/Music.py:397-424 | a command is admitted exactly when it comes from the player's text channel and its caller is privileged, the player is disconnected, or the caller is in the voice channel |
| Commands.ChooseChannel | cogs/Music.py:455 | the caller's own voice channel wins; the requested one is used when the caller is not in voice; there is none only when both are missing |
| Commands.Connect | cogs/Music.py:446-459 | connecting a connected player does nothing; a disconnected one connects exactly when a channel is chosen, and then only the bound channel changes, to the chosen one |
| Commands.Queued | cogs/Music.py:479-491 | a playlist queues every track in order, a plain result queues its first track only, and every queued track is requested by the caller |
| Commands.Play | cogs/Music.py:461-494 | play fails exactly when it must connect and the caller is in no voice channel; a disconnected player is bound to the caller's channel and its first call joins it; it always searches the normalised query; while a track plays it only appends the found tracks; on a player with no current track and no pending wait, the head of the extended queue starts, the rest stays queued and all votes are cleared; while `do_next` waits, the found tracks are appended for the waiting take; a search with no result changes nothing but the connection; with no current track and no pending wait only the channel, current track, queue, `waiting` and votes change |
| Commands.Pause | cogs/Music.py:496-522 | nothing while disconnected or paused; a privileged caller always pauses; when the pause runs the node is told to pause and the only changes are `paused` set and the pause votes cleared |
| Commands.Resume | cogs/Music.py:524-550 | nothing while disconnected or not paused; a privileged caller always resumes; when the resume runs the node is told to resume and the only changes are `paused` cleared and the resume votes cleared |
| Commands.Skip | cogs/Music.py:552-585 | a privileged caller or the track's requester skips at once; whenever the skip runs the node is told to stop and the only change is the cleared skip votes; a non-privileged skip with nothing playing changes nothing |
| Commands.Stop | cogs/Music.py:587-610 | a privileged stop tears the player down; stop is declined only when disconnected |
| Commands.ShuffleQueue | cogs/Music.py:633-662 | a queue of fewer than three tracks is not shuffled; a shuffle only reorders the queue and touches nothing but the queue and the votes |
| Commands.SetVolume | cogs/Music.py:612-631 | the volume changes exactly when the caller is privileged and the value is 1..100, and then only the volume changes, to that value; a refusal never tears down |
| Commands.VolUp | cogs/Music.py:664-680 | a privileged press on a connected player raises the volume one step and tells the node; any other press is declined and changes nothing |
| Commands.VolDown | cogs/Music.py:682-698 | a privileged press on a connected player lowers the volume one step and tells the node; any other press is declined and changes nothing |
| Commands.SetEqualizer | cogs/Music.py:700-727 | the preset changes exactly when the caller is privileged and the name is a preset's in any case, and then only the preset changes; a refusal never tears down |
| Commands.SwapDj | cogs/Music.py:759-798 | only the DJ changes, for a privileged caller in a channel of three or more; an explicit target must be in voice and not the DJ; without one the first human other than the DJ is chosen; a non-privileged or disconnected call is declined and changes nothing |
| Machine.NowPlayingShowsController | cogs/Music.py:748-757 | on a player with a current track the requested refresh is dropped while another is in flight; otherwise, once done, a controller is shown (the same one if still recent) and nothing else changes |
| Machine.StepKeepsValid | cogs/Music.py:612-698 | no command takes the volume out of 0..100 |
| Machine.BelowQuorumOnlyRecords | cogs/Music.py:512-522 | below the quorum a gated command only adds the caller to that action's voters |
| Machine.RepeatVoteChangesNothing | cogs/Music.py:505-662 | a non-privileged caller who votes again before the quorum leaves the player unchanged |
| Machine.GateRunsAction | cogs/Music.py:505-662 | a bypass or a reached quorum runs the action: stop tears down; pause and resume change only the pause flag and that action's votes, which are cleared; skip changes only its votes, cleared; shuffle changes only the queue, to a permutation, and those votes |
| Machine.GateKeepsOtherBallots | cogs/Music.py:505-662 | a gated command never changes another action's voters |
| Registry.GetOrCreate | cogs/Music.py:401 | the guild keeps its player if it has one; otherwise a new player with the author as DJ is registered |
| Registry.Apply | cogs/Music.py:158 | a torn-down player leaves the registry; a continued one becomes the guild's entry; a declined step changes nothing; no other guild's entry is added, removed or changed |
| Registry.OnVoiceStateUpdate | cogs/Music.py:353-375 | bots are ignored; an unbound player is dropped; a leaving DJ is replaced by the first human left; a member joining the bound channel without the DJ becomes DJ; only the DJ changes |
| Registry.DjLeavingHandsOver | cogs/Music.py:366-372 | after the DJ leaves, the new DJ is a human in the channel if one is left; otherwise the player is unchanged |
| Registry.VoiceUpdateIsLocal | cogs/Music.py:353-375 | a voice-state change never alters another guild's player |
| Scenarios.Idle | cogs/Music.py:38-55 | a freshly connected player is idle, not waiting and has an empty queue |
| Scenarios.PauseNeedsTwoOfFive | cogs/Music.py:512-519 | with five members one vote is recorded without pausing and a second voter's vote pauses and clears the votes |
| Scenarios.StopNeedsTwoOfThree | cogs/Music.py:433-435 | with three members a lone non-privileged stop vote does not stop the player |
| Scenarios.PrivilegedSkip | cogs/Music.py:561-566 | the DJ skipping X with [Y, Z] queued stops X; the end event starts Y with all votes cleared and Z queued |
| Scenarios.RequestOrderIsPlayOrder | cogs/Music.py:491-494 | three tracks requested on an idle player play in request order |
| Scenarios.IdleTimeoutStartsAfresh | cogs/Music.py:70-74 | a timed-out wait tears the player down and the next command builds a fresh default player |
| Scenarios.VolumeEdges | cogs/Music.py:625-629 | the DJ's volume 0 and 101 are rejected, 1 and 100 are set |

## Left out

- Presentation: every message text, `PaginatorSource` and the `queue` command are left out. They
  only display state. `build_embed` is left out too, apart from the case below.
- Controller.BeginRefresh: treats posting and editing the controller as always succeeding. With
  no current track (a DJ's `connect` followed by `nowplaying`, or `nowplaying` while `do_next`
  waits), `build_embed` returns None and the controller is sent, or edited, with no content and
  no embed. How the chat platform answers that is not part of this model. If it refuses with an
  HTTPException, `updating` stays set for good and the new controller has no message, so a
  later teardown fails too. `Machine.NowPlayingShowsController` is therefore stated only for a
  player with a current track.
- Audio-node I/O: `start_nodes`, `on_node_ready`, `get_tracks`, `play`, `set_pause`, `stop`,
  `set_volume`, `set_eq` and `destroy` become effects in the outcome. The search answer is the
  input `Found`.
- Node-side state: the node clears the current track before it reports an end, stuck or
  exception event. `OnTrackEnd` models that by dropping the current track. The node's `stop`
  (a skip) is an effect only, and the track stays current until its end event.
- Starting a track leaves the `paused` flag as it was. How the node resets pausing on play is
  not part of this model.
- Time: the 300-second `async_timeout` is a boolean input. It matters only when the queue is
  empty, because `Queue.get` returns at once when a track is waiting.
- Concurrency: each command and event is one atomic step, although the source awaits inside
  them. This rules out interleavings the source allows: another command between `play`'s
  connect, search, `queue.put` and `do_next`; between `do_next`'s `play(track)` and its
  `invoke_controller`; and between a gated command's chat message and its clearing of the votes.
  A `do_next` suspended on an empty queue is a player with `waiting` set, and
  `Session.AwaitNext` is its later resumption. The `invoke_controller` call that ends `do_next`
  is the `RefreshController` effect; the refresh itself is `Controller.BeginRefresh` then
  `Controller.EndRefresh`.
- Session.AwaitNext: a suspended wait is only the `waiting` flag on the player record, so
  tearing the player down (a `stop` while waiting, say) discards it. In the source the old
  player's coroutine keeps waiting, times out 300 seconds later and runs that player's
  `teardown` and `destroy`, which act on the guild and may remove a player created since.
  `Scenarios.IdleTimeoutStartsAfresh` holds only under this abstraction.
- Session.AwaitNext: on timeout it uses the corrected `Session.Teardown`; the code as written
  raises there when no controller exists (see Findings) and keeps the player.
- Session.DoNext: reaches the corrected `Session.Teardown` through `Session.AwaitNext`, not the
  as-written one.
- Commands.Stop: a bypass or a passed vote uses the corrected `Session.Teardown`. On a connected
  player with no controller the code as written raises and keeps the player.
- Randomness: `random.shuffle`'s draws are the input function `draw`.
- Floating point: `required`, `vol_up` and `vol_down` use exact integer ceiling division. The
  float quotients (n-1)/2.5 and (v±10)/10 are never within rounding distance of an integer they
  do not equal, so the ceilings agree for all values these commands see.
- Equalizer.Lower: folds ASCII capitals only. `str.lower` folds other scripts too, but no other
  character lower-cases to a single letter of "flat", "boost", "metal" or "piano", so preset
  matching is unaffected.
- `swap_dj` crash: after choosing a DJ with no explicit target, the confirmation message reads
  `member.mention` on `None` and raises. The DJ has already changed by then, so the model keeps
  the change and drops the crash.
- Player context: it is reduced to its text channel and its author, the first DJ. Players in
  the registry always have a context, because commands create them with one. A guild missing
  from the registry stands for the context-less player that `on_voice_state_update` creates and
  then drops at once.
- `cog_before_invoke`: its `connect`-without-context branch cannot be reached for that reason.
  A voice channel the bot cannot look up is treated as present.
- Reaction handling: `update_context`, the menu's start and stop, and the removal of a
  reaction after a button runs are left out. They are chat-side bookkeeping.
- Guild-only commands: `cog_check` and `cog_command_error` are handled before the player is
  reached.
- Other files: the rest of the repository (members, database, moderation, utility, error,
  logging and fun cogs, and the youtube-dl backup player) is not part of this model. It holds
  no player logic.

## Findings

| source | as written | input that shows it | evidently intended | confidence | as-written member | corrected member |
|---|---|---|---|---|---|---|
| cogs/Music.py:150-158 | `teardown` reads `self.controller.message` before anything else and catches only `HTTPException`. With no controller, the AttributeError ends it before `destroy`, and the player stays registered and connected | the DJ runs `connect`, then `stop` before any track has played; or `play` finds an empty playlist and the 300-second wait then times out, leaving `waiting` set for good | teardown always destroys the player and deletes the controller only if there is one | high by reading; not executed | Session.TeardownAsWritten | Session.Teardown |

=== FILE: arith.dfy ===
/**
 * Integer stand-ins for the float arithmetic of the cog: `math.ceil` of a
 * quotient, computed exactly.
 */
module Arith {

  /** Ceiling of a / b for a positive divisor, on exact integers. */
  function CeilDiv(a: int, b: int): (r: int)
    requires b > 0
    ensures b * (r - 1) < a <= b * r
  {
    var q := (-a) / b;
    assert -a == b * q + (-a) % b;
    -q
  }
}

=== FILE: commands.dfy ===
/**
 * The music commands of `MusicCog` on one player. Each command is one step
 * from the player it finds to an Outcome; the caller, the members of the
 * bound voice channel and the audio node's answers are inputs.
 */
module Commands {

  import opened Wrappers
  import opened Votes
  import opened Members
  import opened Session
  import Queries
  import Volume
  import Equalizer
  import Shuffle

  /** The member who issued a command, and whether they may kick members. */
  datatype Caller = Caller(id: UserId, kick: bool)

  /** `is_privileged`: the DJ, or anyone with the kick-members permission. */
  predicate IsPrivileged(p: Player, c: Caller) {
    p.dj == c.id || c.kick
  }

  /**
   * `cog_before_invoke`: commands must come from the player's text channel,
   * and a non-privileged caller of a connected player must be in its voice
   * channel. None admits the command.
   */
  function BeforeInvoke(p: Player, c: Caller, text: ChannelId, voice: seq<Member>): (refusal: Option<Reason>)
    ensures refusal.Some? ==> refusal == Some(WrongChannel)
    ensures refusal.None? <==> p.home == text && (IsPrivileged(p, c) || !Connected(p) || InChannel(c.id, voice))
  {
    if p.home != text then Some(WrongChannel)
    else if IsPrivileged(p, c) then None
    else if !Connected(p) then None
    else if !InChannel(c.id, voice) then Some(WrongChannel)
    else None
  }

  /** `getattr(ctx.author.voice, 'channel', channel)`: the caller's own voice channel wins. */
  function ChooseChannel(callerVoice: Option<ChannelId>, requested: Option<ChannelId>): (ch: Option<ChannelId>)
    ensures ch.None? <==> callerVoice.None? && requested.None?
    ensures callerVoice.Some? ==> ch == callerVoice
    ensures callerVoice.None? ==> ch == requested
  {
    if callerVoice.Some? then callerVoice else requested
  }

  /** `connect`: bind the player to a voice channel unless it already is. */
  function Connect(p: Player, callerVoice: Option<ChannelId>, requested: Option<ChannelId>): (o: Outcome)
    ensures Connected(p) ==> o == Declined(Inapplicable)
    ensures !Connected(p) && ChooseChannel(callerVoice, requested).None? ==> o == Declined(NoChannel)
    ensures !Connected(p) && ChooseChannel(callerVoice, requested).Some? ==> o.Continue?
    ensures o.Continue? ==>
      && !Connected(p)
      && o.player == p.(channel := o.player.channel)
      && o.player.channel == ChooseChannel(callerVoice, requested)
      && o.effects == [JoinVoice(o.player.channel.value)]
  {
    if Connected(p) then Declined(Inapplicable)
    else match ChooseChannel(callerVoice, requested)
      case None => Declined(NoChannel)
      case Some(ch) => Continue(p.(channel := Some(ch)), [JoinVoice(ch)])
  }

  /** What the audio node's search answered. */
  datatype Found =
    | NoMatches
    | Tracks(handles: seq<nat>)      // a plain result list; only its first entry is queued
    | Playlist(handles: seq<nat>)    // every entry is queued, in order

  /** The tracks `play` queues for a search answer, each requested by the caller. */
  function Queued(found: Found, requester: UserId): (ts: seq<Track>)
    ensures found.Playlist? ==> |ts| == |found.handles|
    ensures found.Tracks? && |found.handles| > 0 ==> ts == [Track(found.handles[0], requester)]
    ensures found.NoMatches? || (found.Tracks? && |found.handles| == 0) ==> ts == []
    ensures forall i :: 0 <= i < |ts| ==> ts[i].requester == requester
    ensures found.Playlist? ==> forall i :: 0 <= i < |ts| ==> ts[i].handle == found.handles[i]
  {
    match found
    case NoMatches => []
    case Tracks(hs) => if |hs| == 0 then [] else [Track(hs[0], requester)]
    case Playlist(hs) => seq(|hs|, i requires 0 <= i < |hs| => Track(hs[i], requester))
  }

  /**
   * `play`: connect first if needed, search for the normalised query, append
   * what was found to the queue and, unless a track is playing, advance.
   */
  function Play(p: Player, c: Caller, callerVoice: Option<ChannelId>, query: string, found: Found): (o: Outcome)
    ensures !Connected(p) && ChooseChannel(callerVoice, None).None? ==> o == Declined(NoChannel)
    ensures o.Declined? || o.Continue?
    ensures o.Declined? ==> !Connected(p) && ChooseChannel(callerVoice, None).None?
    ensures o.Continue? && !Connected(p) ==>
      && o.player.channel == ChooseChannel(callerVoice, None)
      && |o.effects| > 0 && o.effects[0] == JoinVoice(o.player.channel.value)
    ensures Connected(p) ==> o.Continue?
    ensures o.Continue? ==> o.player.volume == p.volume && o.player.dj == p.dj && Connected(o.player)
    ensures o.Continue? ==> SearchTracks(Queries.Normalise(query)) in o.effects
    ensures o.Continue? && Playing(p) ==>
      o.player == p.(queue := p.queue + Queued(found, c.id)) && o.effects == [SearchTracks(Queries.Normalise(query))]
    ensures o.Continue? && p.current.None? && !p.waiting && |Queued(found, c.id)| > 0 ==>
      && o.player.current == Some((p.queue + Queued(found, c.id))[0])
      && o.player.queue == (p.queue + Queued(found, c.id))[1..]
      && AllEmpty(o.player.ballots)
      && StartTrack((p.queue + Queued(found, c.id))[0]) in o.effects
    ensures o.Continue? && p.waiting && !Playing(p) ==>
      o.player == p.(channel := o.player.channel, queue := p.queue + Queued(found, c.id))
    ensures o.Continue? && !Playing(p) && !found.Playlist? && Queued(found, c.id) == [] ==>
      o.player == p.(channel := o.player.channel)
    ensures o.Continue? && p.current.None? && !p.waiting ==>
      o.player == p.(channel := o.player.channel, current := o.player.current, queue := o.player.queue,
                     waiting := o.player.waiting, ballots := o.player.ballots)
  {
    var joined := if Connected(p) then Continue(p, []) else Connect(p, callerVoice, None);
    if joined.Declined? then joined
    else
      var search := joined.effects + [SearchTracks(Queries.Normalise(query))];
      var tracks := Queued(found, c.id);
      if found.NoMatches? || (found.Tracks? && |found.handles| == 0) then
        Continue(joined.player, search)
      else
        var q := joined.player.(queue := joined.player.queue + tracks);
        if Playing(q) then Continue(q, search)
        else
          var next := DoNext(q, false);
          Continue(next.player, search + next.effects)
  }

  /** The gate decision of a vote-gated action for this caller and channel. */
  function Vote(p: Player, a: Action, c: Caller, voice: seq<Member>, bypass: bool): Gate {
    CastVote(p.ballots.Get(a), c.id, bypass, Required(|voice|, a))
  }

  /** The player with the action's voters replaced by what the gate left. */
  function Record(p: Player, a: Action, g: Gate): (q: Player)
    ensures q.ballots.Get(a) == g.voters
    ensures forall b :: b != a ==> q.ballots.Get(b) == p.ballots.Get(b)
  {
    p.(ballots := p.ballots.Put(a, g.voters))
  }

  /** `pause` */
  function Pause(p: Player, c: Caller, voice: seq<Member>): (o: Outcome)
    ensures !Connected(p) || p.paused ==> o.Declined?
    ensures o.Continue? && o.effects != [] ==>
      o.player == p.(paused := true, ballots := p.ballots.Put(Action.Pause, {})) && o.effects == [SetPause(true)]
    ensures Connected(p) && !p.paused && IsPrivileged(p, c) ==> o.Continue? && o.effects != []
  {
    if !Connected(p) then Declined(NotConnected)
    else if p.paused then Declined(Inapplicable)
    else
      var g := Vote(p, Action.Pause, c, voice, IsPrivileged(p, c));
      if g.fires then Continue(Record(p, Action.Pause, g).(paused := true), [SetPause(true)])
      else Continue(Record(p, Action.Pause, g), [])
  }

  /** `resume` */
  function Resume(p: Player, c: Caller, voice: seq<Member>): (o: Outcome)
    ensures !Connected(p) || !p.paused ==> o.Declined?
    ensures o.Continue? && o.effects != [] ==>
      o.player == p.(paused := false, ballots := p.ballots.Put(Action.Resume, {})) && o.effects == [SetPause(false)]
    ensures Connected(p) && p.paused && IsPrivileged(p, c) ==> o.Continue? && o.effects != []
  {
    if !Connected(p) then Declined(NotConnected)
    else if !p.paused then Declined(Inapplicable)
    else
      var g := Vote(p, Action.Resume, c, voice, IsPrivileged(p, c));
      if g.fires then Continue(Record(p, Action.Resume, g).(paused := false), [SetPause(false)])
      else Continue(Record(p, Action.Resume, g), [])
  }

  /**
   * `skip`: the requester of the playing track may skip without a vote. The
   * node is told to stop the track; its end event then advances the queue.
   * With nothing playing, a non-privileged skip reads the requester of no
   * track and the source raises.
   */
  function Skip(p: Player, c: Caller, voice: seq<Member>): (o: Outcome)
    ensures Connected(p) && !IsPrivileged(p, c) && p.current.None? ==> o == Declined(Aborted)
    ensures Connected(p) && (IsPrivileged(p, c) || (p.current.Some? && p.current.value.requester == c.id)) ==>
      o == Continue(p.(ballots := p.ballots.Put(Action.Skip, {})), [StopTrack])
    ensures o.Continue? && o.effects != [] ==> o == Continue(p.(ballots := p.ballots.Put(Action.Skip, {})), [StopTrack])
  {
    if !Connected(p) then Declined(NotConnected)
    else if !IsPrivileged(p, c) && p.current.None? then Declined(Aborted)
    else
      var bypass := IsPrivileged(p, c) || p.current.value.requester == c.id;
      var g := Vote(p, Action.Skip, c, voice, bypass);
      if g.fires then Continue(Record(p, Action.Skip, g), [StopTrack])
      else Continue(Record(p, Action.Skip, g), [])
  }

  /** `stop`: a privileged caller or a passed vote tears the player down. */
  function Stop(p: Player, c: Caller, voice: seq<Member>): (o: Outcome)
    ensures Connected(p) && IsPrivileged(p, c) ==> o == Teardown(p)
    ensures o.Declined? <==> !Connected(p)
  {
    if !Connected(p) then Declined(NotConnected)
    else
      var g := Vote(p, Action.Stop, c, voice, IsPrivileged(p, c));
      if g.fires then Teardown(p)
      else Continue(Record(p, Action.Stop, g), [])
  }

  /** The fewest tracks the queue must hold before it may be shuffled. */
  const MinShuffle: nat := 3

  /** `shuffle`: the queue is permuted; its contents never change. */
  function ShuffleQueue(p: Player, c: Caller, voice: seq<Member>, draw: nat -> nat): (o: Outcome)
    ensures Connected(p) && |p.queue| < MinShuffle ==> o == Declined(QueueTooShort)
    ensures o.Continue? ==> multiset(o.player.queue) == multiset(p.queue) && o.effects == []
    ensures o.Continue? ==> o.player == p.(queue := o.player.queue, ballots := o.player.ballots)
  {
    if !Connected(p) then Declined(NotConnected)
    else if |p.queue| < MinShuffle then Declined(QueueTooShort)
    else
      var g := Vote(p, Action.Shuffle, c, voice, IsPrivileged(p, c));
      if g.fires then Continue(Record(p, Action.Shuffle, g).(queue := Shuffle.Shuffled(p.queue, draw)), [])
      else Continue(Record(p, Action.Shuffle, g), [])
  }

  /** `volume`: privileged callers only, values 1 to 100 only. */
  function SetVolume(p: Player, c: Caller, vol: int): (o: Outcome)
    ensures !o.TornDown?
    ensures o.Continue? <==> Connected(p) && IsPrivileged(p, c) && Volume.Accepted(vol)
    ensures o.Continue? ==> o.player == p.(volume := vol) && o.effects == [Session.SetVolume(vol)]
    ensures Connected(p) && IsPrivileged(p, c) && !Volume.Accepted(vol) ==> o == Declined(OutOfRange)
  {
    if !Connected(p) then Declined(NotConnected)
    else if !IsPrivileged(p, c) then Declined(NotPrivileged)
    else if !Volume.Accepted(vol) then Declined(OutOfRange)
    else Continue(p.(volume := vol), [Session.SetVolume(vol)])
  }

  /** `vol_up`, run by the controller's + button. */
  function VolUp(p: Player, c: Caller): (o: Outcome)
    ensures !o.TornDown?
    ensures o.Continue? <==> Connected(p) && IsPrivileged(p, c)
    ensures o.Continue? ==>
      && o.player == p.(volume := Volume.StepUp(p.volume))
      && o.effects == [Session.SetVolume(Volume.StepUp(p.volume))]
  {
    if !Connected(p) || !IsPrivileged(p, c) then Declined(NotPrivileged)
    else
      var v := Volume.StepUp(p.volume);
      Continue(p.(volume := v), [Session.SetVolume(v)])
  }

  /** `vol_down`, run by the controller's - button. */
  function VolDown(p: Player, c: Caller): (o: Outcome)
    ensures !o.TornDown?
    ensures o.Continue? <==> Connected(p) && IsPrivileged(p, c)
    ensures o.Continue? ==>
      && o.player == p.(volume := Volume.StepDown(p.volume))
      && o.effects == [Session.SetVolume(Volume.StepDown(p.volume))]
  {
    if !Connected(p) || !IsPrivileged(p, c) then Declined(NotPrivileged)
    else
      var v := Volume.StepDown(p.volume);
      Continue(p.(volume := v), [Session.SetVolume(v)])
  }

  /** `equalizer`: privileged callers only, named presets only. */
  function SetEqualizer(p: Player, c: Caller, name: string): (o: Outcome)
    ensures !o.TornDown?
    ensures o.Continue? <==> Connected(p) && IsPrivileged(p, c) && Equalizer.Parse(name).Some?
    ensures o.Continue? ==>
      && Equalizer.Lower(name) == Equalizer.Name(o.player.preset)
      && o.player == p.(preset := o.player.preset)
      && o.effects == [SetPreset(o.player.preset)]
  {
    if !Connected(p) then Declined(NotConnected)
    else if !IsPrivileged(p, c) then Declined(NotPrivileged)
    else match Equalizer.Parse(name)
      case None => Declined(UnknownPreset)
      case Some(e) => Continue(p.(preset := e), [SetPreset(e)])
  }

  /**
   * `swap_dj`: hand the DJ role to the named member, or else to the first
   * human in the voice channel who is not the DJ. Only a change of DJ ever
   * happens.
   */
  function SwapDj(p: Player, c: Caller, voice: seq<Member>, target: Option<UserId>): (o: Outcome)
    ensures !o.TornDown?
    ensures !(Connected(p) && IsPrivileged(p, c)) ==> o.Declined?
    ensures o.Continue? ==>
      && Connected(p) && IsPrivileged(p, c) && |voice| > 2
      && o.player == p.(dj := o.player.dj) && o.effects == []
      && o.player.dj != p.dj && InChannel(o.player.dj, voice)
    ensures o.Continue? && target.Some? ==> o.player.dj == target.value
    ensures o.Continue? && target.None? ==> Some(o.player.dj) == FirstEligible(voice, Some(p.dj))
    ensures Connected(p) && IsPrivileged(p, c) && target.Some? ==>
      (o.Continue? <==> InChannel(target.value, voice) && target.value != p.dj && |voice| > 2)
    ensures Connected(p) && IsPrivileged(p, c) && target.None? ==>
      (o.Continue? <==> |voice| > 2 && FirstEligible(voice, Some(p.dj)).Some?)
  {
    if !Connected(p) then Declined(NotConnected)
    else if !IsPrivileged(p, c) then Declined(NotPrivileged)
    else if target.Some? && !InChannel(target.value, voice) then Declined(NotInVoice)
    else if target == Some(p.dj) then Declined(AlreadyDj)
    else if |voice| <= 2 then Declined(TooFewMembers)
    else match target
      case Some(t) => Continue(p.(dj := t), [])
      case None =>
        match FirstEligible(voice, Some(p.dj))
        case Some(u) => Continue(p.(dj := u), [])
        case None => Declined(TooFewMembers)
  }

  /** `nowplaying`: ask for a controller refresh and change nothing else. */
  function NowPlaying(p: Player): (o: Outcome)
    ensures !o.TornDown?
    ensures o.Continue? <==> Connected(p)
    ensures o.Continue? ==> o.player == p && o.effects == [RefreshController]
  {
    if Connected(p) then Continue(p, [RefreshController]) else Declined(NotConnected)
  }
}

=== FILE: controller.dfy ===
/**
 * The interactive controller (`InteractiveController` and the controller
 * half of `Player`): which reactions it accepts, which command each button
 * runs, and whether a refresh creates, recreates or edits the message.
 */
module Controller {

  import opened Wrappers
  import opened Members
  import opened Session

  /** The commands behind the controller's buttons. */
  datatype Button = ResumeButton | PauseButton | StopButton | SkipButton
                  | ShuffleButton | VolUpButton | VolDownButton | QueueButton

  /** Button lookup by emoji; None for an emoji that is not a button. */
  function ButtonFor(emoji: string): (b: Option<Button>)
    ensures b.Some? ==> Emoji(b.value) == emoji
  {
    if emoji == "\U{25B6}" then Some(ResumeButton)
    else if emoji == "\U{23F8}" then Some(PauseButton)
    else if emoji == "\U{23F9}" then Some(StopButton)
    else if emoji == "\U{23ED}" then Some(SkipButton)
    else if emoji == "\U{1F500}" then Some(ShuffleButton)
    else if emoji == "\U{2795}" then Some(VolUpButton)
    else if emoji == "\U{2796}" then Some(VolDownButton)
    else if emoji == "\U{1F1F6}" then Some(QueueButton)
    else None
  }

  /** The emoji each button is registered under. */
  function Emoji(b: Button): string {
    match b
    case ResumeButton => "\U{25B6}"
    case PauseButton => "\U{23F8}"
    case StopButton => "\U{23F9}"
    case SkipButton => "\U{23ED}"
    case ShuffleButton => "\U{1F500}"
    case VolUpButton => "\U{2795}"
    case VolDownButton => "\U{2796}"
    case QueueButton => "\U{1F1F6}"
  }

  /** Each button is found under its own emoji, so the table is one-to-one. */
  lemma ButtonForEmoji(b: Button)
    ensures ButtonFor(Emoji(b)) == Some(b)
  {
  }

  datatype ReactionKind = ReactionAdd | ReactionRemove

  /** A raw reaction event: who reacted (None if unknown), on which message, with what. */
  datatype Reaction = Reaction(kind: ReactionKind, member: Option<Member>, message: MessageId, emoji: string)

  /**
   * `reaction_check`: only an added reaction, by a known human member who
   * is in the player's voice channel, on the live controller message, with
   * one of the button emojis.
   */
  function ReactionCheck(r: Reaction, controllerMessage: MessageId, voice: seq<Member>): (accepted: bool)
    ensures accepted ==> ButtonFor(r.emoji).Some?
    ensures accepted ==> r.member.Some? && !r.member.value.bot && InChannel(r.member.value.id, voice)
    ensures accepted ==> r.kind == ReactionAdd && r.message == controllerMessage
  {
    if r.kind.ReactionRemove? then false
    else if r.member.None? then false
    else if r.member.value.bot then false
    else if r.message != controllerMessage then false
    else if !InChannel(r.member.value.id, voice) then false
    else ButtonFor(r.emoji).Some?
  }

  /** A listener's press of any button on the live controller is accepted. */
  lemma ListenerPressAccepted(m: Member, message: MessageId, voice: seq<Member>, b: Button)
    requires !m.bot && InChannel(m.id, voice)
    ensures ReactionCheck(Reaction(ReactionAdd, Some(m), message, Emoji(b)), message, voice)
  {
    ButtonForEmoji(b);
  }

  /** The number of recent channel messages searched for the controller. */
  const HistoryLimit: nat := 5

  /**
   * `is_position_fresh`: the controller message is among the channel's
   * `HistoryLimit` most recent messages (newest first in `history`).
   */
  function IsPositionFresh(history: seq<MessageId>, message: MessageId): (recent: bool)
    ensures recent <==> exists i :: 0 <= i < |history| && i < HistoryLimit && history[i] == message
  {
    Scan(history, message, HistoryLimit)
  }

  /** The `async for` over at most `limit` messages. */
  function Scan(history: seq<MessageId>, message: MessageId, limit: nat): (found: bool)
    ensures found <==> exists i :: 0 <= i < |history| && i < limit && history[i] == message
  {
    if |history| == 0 || limit == 0 then false
    else if history[0] == message then true
    else
      var rest := Scan(history[1..], message, limit - 1);
      assert rest ==> exists i :: 0 <= i < |history| && i < limit && history[i] == message by {
        if rest {
          var i :| 0 <= i < |history[1..]| && i < limit - 1 && history[1..][i] == message;
          assert history[i + 1] == message;
        }
      }
      rest
  }

  /** The three ways a refresh can go, and the refresh dropped while one is in flight. */
  datatype Refresh = Dropped | Created | Recreated | Edited

  /**
   * The part of `invoke_controller` before its first await: the `updating`
   * guard, and the decision to create, recreate or edit the controller.
   * `history` is the channel's recent messages and `posted` the identity the
   * platform gives a newly posted controller message.
   */
  function BeginRefresh(p: Player, history: seq<MessageId>, posted: MessageId): (r: (Refresh, Player, seq<Effect>))
    ensures p.updating ==> r == (Dropped, p, [])
    ensures !p.updating ==> r.1.updating && r.1.controller.Some? && r.1 == p.(updating := true, controller := r.1.controller)
    ensures !p.updating && p.controller.None? ==>
      r.0 == Created && r.1.controller == Some(posted) && r.2 == [PostController(posted)]
    ensures !p.updating && p.controller.Some? ==>
      if IsPositionFresh(history, p.controller.value)
      then r.0 == Edited && r.1.controller == p.controller && r.2 == [EditController(p.controller.value)]
      else r.0 == Recreated && r.1.controller == Some(posted) && r.2 == [DeleteController(p.controller.value), PostController(posted)]
  {
    if p.updating then (Dropped, p, [])
    else
      var q := p.(updating := true);
      match p.controller
      case None => (Created, q.(controller := Some(posted)), [PostController(posted)])
      case Some(m) =>
        if !IsPositionFresh(history, m) then
          (Recreated, q.(controller := Some(posted)), [DeleteController(m), PostController(posted)])
        else
          (Edited, q, [EditController(m)])
  }

  /** The end of `invoke_controller`: the guard is released. */
  function EndRefresh(p: Player): (q: Player)
    ensures !q.updating && q.controller == p.controller
  {
    p.(updating := false)
  }

  /**
   * A refresh that is not dropped, once it ends, changes nothing but the
   * controller, which is then live, and leaves refreshing open again.
   */
  lemma RefreshRoundTrip(p: Player, history: seq<MessageId>, posted: MessageId, h: seq<MessageId>, m: MessageId)
    requires !p.updating
    ensures var q := EndRefresh(BeginRefresh(p, history, posted).1);
            && q == p.(controller := q.controller)
            && q.controller.Some?
            && BeginRefresh(q, h, m).0 != Dropped
  {
  }

  /**
   * While one refresh is in flight, a second one is dropped without any
   * effect; once it ends, refreshing is possible again and the controller is
   * the one the first refresh left.
   */
  lemma RefreshExcludesRefresh(p: Player, h1: seq<MessageId>, m1: MessageId, h2: seq<MessageId>, m2: MessageId)
    requires !p.updating
    ensures var (_, q, _) := BeginRefresh(p, h1, m1);
            && BeginRefresh(q, h2, m2) == (Dropped, q, [])
            && !EndRefresh(q).updating
            && EndRefresh(q).controller.Some?
            && BeginRefresh(EndRefresh(q), h2, m2).0 != Dropped
  {
  }
}

=== FILE: equalizer.dfy ===
/** The closed set of equalizer presets of the `equalizer` command. */
module Equalizer {

  import opened Wrappers

  datatype Preset = Flat | Boost | Metal | Piano

  /** The preset's name as the command spells it. */
  function Name(p: Preset): string {
    match p
    case Flat => "flat"
    case Boost => "boost"
    case Metal => "metal"
    case Piano => "piano"
  }

  function LowerChar(c: char): char {
    if 'A' <= c <= 'Z' then (c as int - 'A' as int + 'a' as int) as char else c
  }

  /**
   * Lower-casing of the user's argument. Only ASCII letters are folded; no
   * other character lower-cases to a single letter of a preset name.
   */
  function Lower(s: string): (r: string)
    ensures |r| == |s|
    ensures forall i :: 0 <= i < |r| ==> !('A' <= r[i] <= 'Z')
    ensures forall i :: 0 <= i < |s| && !('A' <= s[i] <= 'Z') ==> r[i] == s[i]
    ensures forall i :: 0 <= i < |s| && 'A' <= s[i] <= 'Z' ==> 'a' <= r[i] <= 'z' && r[i] as int - s[i] as int == 32
  {
    seq(|s|, i requires 0 <= i < |s| => LowerChar(s[i]))
  }

  /** Lower-casing a lower-cased name changes nothing. */
  lemma LowerIdempotent(s: string)
    ensures Lower(Lower(s)) == Lower(s)
  {
  }

  /** `eqs.get(equalizer.lower(), None)`. */
  function Parse(name: string): (r: Option<Preset>)
    ensures r.Some? ==> Lower(name) == Name(r.value)
    ensures r.None? ==> forall p :: Lower(name) != Name(p)
  {
    var key := Lower(name);
    if key == "flat" then Some(Flat)
    else if key == "boost" then Some(Boost)
    else if key == "metal" then Some(Metal)
    else if key == "piano" then Some(Piano)
    else None
  }

  /** Every preset is found under its own name. */
  lemma ParseName(p: Preset)
    ensures Parse(Name(p)) == Some(p)
  {
    var n := Name(p);
    assert Lower(n) == n;
  }

  /** Names are matched without regard to case. */
  lemma ParseIgnoresCase(name: string)
    ensures Parse(Lower(name)) == Parse(name)
  {
    LowerIdempotent(name);
  }
}

=== FILE: machine.dfy ===
/**
 * The player as one state machine: every command of the cog as a step, and
 * the properties the vote-gated commands share.
 */
module Machine {

  import opened Wrappers
  import opened Votes
  import opened Members
  import opened Session
  import opened Commands
  import Volume
  import Controller

  datatype Command =
    | ConnectCmd(requested: Option<ChannelId>)
    | PlayCmd(query: string, found: Found)
    | PauseCmd
    | ResumeCmd
    | SkipCmd
    | StopCmd
    | ShuffleCmd(draw: nat -> nat)
    | VolumeCmd(vol: int)
    | VolUpCmd
    | VolDownCmd
    | EqualizerCmd(name: string)
    | SwapDjCmd(target: Option<UserId>)
    | NowPlayingCmd

  /** Who issued the command, the caller's own voice channel, and the bound channel's members. */
  datatype Env = Env(caller: Caller, callerVoice: Option<ChannelId>, voice: seq<Member>)

  function Step(p: Player, cmd: Command, env: Env): Outcome {
    match cmd
    case ConnectCmd(requested) => Connect(p, env.callerVoice, requested)
    case PlayCmd(query, found) => Play(p, env.caller, env.callerVoice, query, found)
    case PauseCmd => Commands.Pause(p, env.caller, env.voice)
    case ResumeCmd => Commands.Resume(p, env.caller, env.voice)
    case SkipCmd => Commands.Skip(p, env.caller, env.voice)
    case StopCmd => Commands.Stop(p, env.caller, env.voice)
    case ShuffleCmd(draw) => ShuffleQueue(p, env.caller, env.voice, draw)
    case VolumeCmd(vol) => Commands.SetVolume(p, env.caller, vol)
    case VolUpCmd => VolUp(p, env.caller)
    case VolDownCmd => VolDown(p, env.caller)
    case EqualizerCmd(name) => SetEqualizer(p, env.caller, name)
    case SwapDjCmd(target) => SwapDj(p, env.caller, env.voice, target)
    case NowPlayingCmd => NowPlaying(p)
  }

  /** Every command keeps the volume within 0..100. */
  lemma StepKeepsValid(p: Player, cmd: Command, env: Env)
    requires Valid(p)
    ensures Step(p, cmd, env).Continue? ==> Valid(Step(p, cmd, env).player)
  {
    match cmd
    case PlayCmd(query, found) =>
      assert Step(p, cmd, env) == Play(p, env.caller, env.callerVoice, query, found);
    case VolumeCmd(vol) =>
      assert Step(p, cmd, env) == Commands.SetVolume(p, env.caller, vol);
    case VolUpCmd =>
      assert Step(p, cmd, env) == VolUp(p, env.caller);
    case VolDownCmd =>
      assert Step(p, cmd, env) == VolDown(p, env.caller);
    case _ =>
  }

  /** The vote-gated command for an action. */
  function Gated(p: Player, a: Action, c: Caller, voice: seq<Member>, draw: nat -> nat): Outcome {
    match a
    case Pause => Commands.Pause(p, c, voice)
    case Resume => Commands.Resume(p, c, voice)
    case Skip => Commands.Skip(p, c, voice)
    case Shuffle => ShuffleQueue(p, c, voice, draw)
    case Stop => Commands.Stop(p, c, voice)
  }

  /**
   * The checks each gated command makes before it looks at votes: a bound
   * voice channel, and pause only when playing on, resume only when paused,
   * skip only with a current track, shuffle only with three queued tracks.
   */
  predicate Applicable(p: Player, a: Action) {
    && Connected(p)
    && (a == Action.Pause ==> !p.paused)
    && (a == Action.Resume ==> p.paused)
    && (a == Action.Skip ==> p.current.Some?)
    && (a == Action.Shuffle ==> |p.queue| >= MinShuffle)
  }

  /** Whether the caller gets past the gate without voting. */
  predicate Bypasses(p: Player, a: Action, c: Caller) {
    || IsPrivileged(p, c)
    || (a == Action.Skip && p.current.Some? && p.current.value.requester == c.id)
  }

  /** The player after the caller's vote is recorded and nothing else happens. */
  function Voted(p: Player, a: Action, c: Caller): (q: Player)
    ensures q.ballots.Get(a) == p.ballots.Get(a) + {c.id}
  {
    p.(ballots := p.ballots.Put(a, p.ballots.Get(a) + {c.id}))
  }

  /** Below the quorum, a vote is recorded and nothing else changes. */
  lemma BelowQuorumOnlyRecords(p: Player, a: Action, c: Caller, voice: seq<Member>, draw: nat -> nat)
    requires Applicable(p, a) && !Bypasses(p, a, c)
    requires |p.ballots.Get(a) + {c.id}| < Required(|voice|, a)
    ensures Gated(p, a, c, voice, draw) == Continue(Voted(p, a, c), [])
  {
  }

  /** A caller who votes again before the quorum is reached changes nothing. */
  lemma RepeatVoteChangesNothing(p: Player, a: Action, c: Caller, voice: seq<Member>, draw: nat -> nat)
    requires Applicable(p, a) && !Bypasses(p, a, c)
    requires |p.ballots.Get(a) + {c.id}| < Required(|voice|, a)
    ensures var once := Voted(p, a, c);
            Gated(once, a, c, voice, draw) == Continue(once, [])
  {
    BelowQuorumOnlyRecords(p, a, c, voice, draw);
    var once := Voted(p, a, c);
    assert once.ballots.Get(a) + {c.id} == once.ballots.Get(a);
    assert Voted(once, a, c) == once by {
      assert once.ballots.Put(a, once.ballots.Get(a)) == once.ballots by {
        match a
        case Pause =>
        case Resume =>
        case Skip =>
        case Shuffle =>
        case Stop =>
      }
    }
    BelowQuorumOnlyRecords(once, a, c, voice, draw);
  }

  /**
   * Bypassing the gate, or reaching the quorum, runs the action: stop tears
   * the player down, the others clear the action's votes and leave the other
   * actions' votes alone.
   */
  lemma GateRunsAction(p: Player, a: Action, c: Caller, voice: seq<Member>, draw: nat -> nat)
    requires Applicable(p, a)
    requires Bypasses(p, a, c) || |p.ballots.Get(a) + {c.id}| >= Required(|voice|, a)
    ensures a == Action.Stop ==> Gated(p, a, c, voice, draw) == Teardown(p)
    ensures a != Action.Stop ==>
      && Gated(p, a, c, voice, draw).Continue?
      && Gated(p, a, c, voice, draw).player.ballots.Get(a) == {}
      && forall b :: b != a ==> Gated(p, a, c, voice, draw).player.ballots.Get(b) == p.ballots.Get(b)
    ensures a == Action.Pause ==> Gated(p, a, c, voice, draw).effects == [SetPause(true)]
    ensures a == Action.Resume ==> Gated(p, a, c, voice, draw).effects == [SetPause(false)]
    ensures a == Action.Skip ==> Gated(p, a, c, voice, draw).effects == [StopTrack]
    ensures a == Action.Shuffle ==> multiset(Gated(p, a, c, voice, draw).player.queue) == multiset(p.queue)
    ensures a == Action.Pause ==> Gated(p, a, c, voice, draw).player == p.(paused := true, ballots := p.ballots.Put(a, {}))
    ensures a == Action.Resume ==> Gated(p, a, c, voice, draw).player == p.(paused := false, ballots := p.ballots.Put(a, {}))
    ensures a == Action.Skip ==> Gated(p, a, c, voice, draw).player == p.(ballots := p.ballots.Put(a, {}))
    ensures a == Action.Shuffle ==>
      Gated(p, a, c, voice, draw).player == p.(queue := Gated(p, a, c, voice, draw).player.queue, ballots := p.ballots.Put(a, {}))
  {
  }

  /** A gated command never changes the votes of another action. */
  lemma GateKeepsOtherBallots(p: Player, a: Action, b: Action, c: Caller, voice: seq<Member>, draw: nat -> nat)
    requires a != b
    ensures Gated(p, a, c, voice, draw).Continue? ==>
      Gated(p, a, c, voice, draw).player.ballots.Get(b) == p.ballots.Get(b)
  {
  }

  /**
   * `nowplaying` on a player with a current track: the refresh it asks for
   * is dropped while another refresh is in flight; otherwise it runs to the
   * end and leaves the player as it was except that a controller is now
   * shown, the same one when it is still among the recent messages.
   */
  lemma NowPlayingShowsController(p: Player, history: seq<MessageId>, posted: MessageId)
    requires Playing(p)
    ensures NowPlaying(p).Continue? && NowPlaying(p).effects == [RefreshController]
    ensures var (k, q, _) := Controller.BeginRefresh(NowPlaying(p).player, history, posted);
            && (p.updating ==> k == Controller.Dropped && q == p)
            && (!p.updating ==>
                  && k != Controller.Dropped
                  && Controller.EndRefresh(q).controller.Some?
                  && Controller.EndRefresh(q) == p.(controller := Controller.EndRefresh(q).controller))
            && (!p.updating && p.controller.Some? && Controller.IsPositionFresh(history, p.controller.value) ==>
                  Controller.EndRefresh(q) == p)
  {
  }
}

=== FILE: members.dfy ===
/** Voice-channel membership as the music commands see it. */
module Members {

  import opened Wrappers

  type UserId = nat

  /** A guild member: identity and whether the account is a bot. */
  datatype Member = Member(id: UserId, bot: bool)

  /** `user in channel.members` (members compare by identity). */
  predicate InChannel(u: UserId, members: seq<Member>) {
    exists i :: 0 <= i < |members| && members[i].id == u
  }

  /** A member who may take the DJ role: a human other than `excluded`. */
  predicate Eligible(m: Member, excluded: Option<UserId>) {
    !m.bot && excluded != Some(m.id)
  }

  /** Position of the first eligible member in iteration order, |members| if none. */
  function FirstEligibleIndex(members: seq<Member>, excluded: Option<UserId>): (k: nat)
    ensures k <= |members|
    ensures forall i :: 0 <= i < k ==> !Eligible(members[i], excluded)
    ensures k < |members| ==> Eligible(members[k], excluded)
  {
    if |members| == 0 then 0
    else if Eligible(members[0], excluded) then 0
    else 1 + FirstEligibleIndex(members[1..], excluded)
  }

  /** The first eligible member's identity, as the source's `for m in members` loops find it. */
  function FirstEligible(members: seq<Member>, excluded: Option<UserId>): (r: Option<UserId>)
    ensures r.None? <==> forall i :: 0 <= i < |members| ==> !Eligible(members[i], excluded)
    ensures r.Some? ==> InChannel(r.value, members) && excluded != r
  {
    var k := FirstEligibleIndex(members, excluded);
    if k < |members| then Some(members[k].id) else None
  }

  /** A bot is never chosen, and the member chosen precedes every other candidate. */
  lemma FirstEligibleIsFirst(members: seq<Member>, excluded: Option<UserId>, i: nat)
    requires i < |members| && Eligible(members[i], excluded)
    ensures FirstEligible(members, excluded).Some?
    ensures exists k :: 0 <= k <= i && members[k].id == FirstEligible(members, excluded).value && !members[k].bot
  {
    var k := FirstEligibleIndex(members, excluded);
    assert k <= i;
  }
}

=== FILE: queries.dfy ===
/**
 * Query normalisation done by the `play` command before it asks the audio
 * node for tracks: angle brackets that chat clients put around links are
 * stripped, and anything that does not look like an http(s) link becomes a
 * YouTube search.
 */
module Queries {

  predicate IsAngle(c: char) {
    c == '<' || c == '>'
  }

  /** Every character of `s` is an angle bracket. */
  predicate AllAngles(s: string) {
    forall k :: 0 <= k < |s| ==> IsAngle(s[k])
  }

  /** Number of angle brackets at the front of `s`. */
  function LeadingAngles(s: string): (n: nat)
    ensures n <= |s|
    ensures forall k :: 0 <= k < n ==> IsAngle(s[k])
    ensures n < |s| ==> !IsAngle(s[n])
  {
    if |s| > 0 && IsAngle(s[0]) then 1 + LeadingAngles(s[1..]) else 0
  }

  /** Number of angle brackets at the back of `s`. */
  function TrailingAngles(s: string): (n: nat)
    ensures n <= |s|
    ensures forall k :: |s| - n <= k < |s| ==> IsAngle(s[k])
    ensures n < |s| ==> !IsAngle(s[|s| - 1 - n])
  {
    if |s| > 0 && IsAngle(s[|s| - 1]) then 1 + TrailingAngles(s[..|s| - 1]) else 0
  }

  /**
   * Python's `query.strip('<>')`: the result is a slice of the input that is
   * reached by dropping only angle brackets, and it neither starts nor ends
   * with one.
   */
  function Strip(s: string): (r: string)
    ensures exists i, j :: 0 <= i <= j <= |s| && r == s[i..j] && AllAngles(s[..i]) && AllAngles(s[j..])
    ensures |r| > 0 ==> !IsAngle(r[0]) && !IsAngle(r[|r| - 1])
  {
    var i := LeadingAngles(s);
    var t := s[i..];
    var n := TrailingAngles(t);
    var j := i + (|t| - n);
    assert AllAngles(s[..i]) by {
      forall k | 0 <= k < i ensures IsAngle(s[..i][k]) {
        assert s[..i][k] == s[k];
      }
    }
    assert AllAngles(s[j..]) by {
      forall k | 0 <= k < |s| - j ensures IsAngle(s[j..][k]) {
        assert s[j..][k] == t[|t| - n + k];
      }
    }
    var r := s[i..j];
    assert |r| > 0 ==> r[0] == s[i] && r[|r| - 1] == t[|t| - 1 - n];
    r
  }

  /** Stripping twice strips nothing more. */
  lemma StripIdempotent(s: string)
    ensures Strip(Strip(s)) == Strip(s)
  {
    var r := Strip(s);
    if |r| > 0 {
      assert LeadingAngles(r) == 0;
      assert TrailingAngles(r) == 0;
    }
  }

  /** True of `s` when `p` is a prefix of it. */
  predicate StartsWith(s: string, p: string) {
    |p| <= |s| && s[..|p|] == p
  }

  /**
   * The module's URL pattern `https?://(?:www\.)?.+` applied with `match`,
   * i.e. anchored at the start: "http://" or "https://" followed by at least
   * one character other than a line feed (the optional "www." can always be
   * absorbed by `.+`, so it adds no condition).
   */
  predicate IsUrl(q: string) {
    || (StartsWith(q, "http://") && |q| > 7 && q[7] != '\n')
    || (StartsWith(q, "https://") && |q| > 8 && q[8] != '\n')
  }

  const SearchPrefix: string := "ytsearch:"

  /** The query handed to the audio node's track search. */
  function Normalise(query: string): (r: string)
    ensures IsUrl(r) <==> IsUrl(Strip(query))
    ensures IsUrl(r) || StartsWith(r, SearchPrefix)
    ensures IsUrl(r) ==> r == Strip(query)
  {
    var q := Strip(query);
    if IsUrl(q) then q
    else
      var r := SearchPrefix + q;
      assert r[0] == 'y';
      r
  }

  /** Recovers the stripped user query from a normalised one. */
  function SearchTerm(normalised: string): string {
    if IsUrl(normalised) then normalised
    else if StartsWith(normalised, SearchPrefix) then normalised[|SearchPrefix|..]
    else normalised
  }

  /** Normalisation loses nothing but the surrounding angle brackets. */
  lemma NormaliseRoundTrip(query: string)
    ensures SearchTerm(Normalise(query)) == Strip(query)
  {
    var q := Strip(query);
    if !IsUrl(q) {
      var r := SearchPrefix + q;
      assert r[..|SearchPrefix|] == SearchPrefix;
      assert r[|SearchPrefix|..] == q;
    }
  }

  /** A link that does not end in a bracket is passed to the node untouched. */
  lemma UrlPassesThrough(query: string)
    requires IsUrl(query) && !IsAngle(query[|query| - 1])
    ensures Normalise(query) == query
  {
    assert LeadingAngles(query) == 0;
    assert query[0..] == query;
    assert TrailingAngles(query) == 0;
  }
}

=== FILE: registry.dfy ===
/**
 * The node's map from guild to player: lookup-or-create, how a step's
 * outcome is written back, and `on_voice_state_update`.
 */
module Registry {

  import opened Wrappers
  import opened Members
  import opened Session

  type GuildId = nat

  /** At most one player per guild, by construction of the map. */
  type Players = map<GuildId, Player>

  /**
   * `get_player(guild, cls=Player, context=ctx)`: the guild's player, or a
   * fresh one whose DJ is the command's author.
   */
  function GetOrCreate(reg: Players, g: GuildId, author: UserId, home: ChannelId): (r: (Players, Player))
    ensures g in r.0 && r.0[g] == r.1
    ensures g in reg ==> r.0 == reg
    ensures g !in reg ==> r.1 == NewPlayer(author, home) && r.0 == reg[g := r.1]
  {
    if g in reg then (reg, reg[g])
    else
      var p := NewPlayer(author, home);
      (reg[g := p], p)
  }

  /** Writes a step's outcome back: a torn-down player leaves the map. */
  function Apply(reg: Players, g: GuildId, o: Outcome): (r: Players)
    ensures g in r <==> o.Continue? || (o.Declined? && g in reg)
    ensures o.Continue? ==> r[g] == o.player
    ensures o.Declined? ==> r == reg
    ensures forall h :: h != g ==> (h in r <==> h in reg)
    ensures forall h :: h != g && h in r ==> r[h] == reg[h]
  {
    match o
    case Continue(p, _) => reg[g := p]
    case Declined(_) => reg
    case TornDown(_) => reg - {g}
  }

  /**
   * `on_voice_state_update` for a member of guild `g` whose voice channel is
   * now `after`; `voice` is the bound channel's members after the change.
   * A player without a bound channel is dropped. When the DJ leaves voice
   * the first human left in the channel becomes DJ; otherwise a member who
   * joins the bound channel while the DJ is not in it becomes DJ.
   */
  function OnVoiceStateUpdate(reg: Players, g: GuildId, member: Member, after: Option<ChannelId>,
                              voice: seq<Member>): (r: Players)
    ensures member.bot || g !in reg ==> r == reg
    ensures !member.bot && g in reg && !Connected(reg[g]) ==> r == reg - {g}
    ensures !member.bot && g in reg && Connected(reg[g]) ==>
      && r.Keys == reg.Keys
      && r == reg[g := reg[g].(dj := r[g].dj)]
      && (member.id == reg[g].dj && after.None? ==>
            r[g].dj == FirstEligible(voice, None).GetOr(reg[g].dj))
      && (!(member.id == reg[g].dj && after.None?) && after == reg[g].channel && !InChannel(reg[g].dj, voice) ==>
            r[g].dj == member.id)
      && (!(member.id == reg[g].dj && after.None?) && !(after == reg[g].channel && !InChannel(reg[g].dj, voice)) ==>
            r == reg)
  {
    if member.bot || g !in reg then reg
    else
      var p := reg[g];
      if !Connected(p) then reg - {g}
      else if member.id == p.dj && after.None? then
        match FirstEligible(voice, None)
        case Some(u) => reg[g := p.(dj := u)]
        case None => reg
      else if after == p.channel && !InChannel(p.dj, voice) then
        reg[g := p.(dj := member.id)]
      else reg
  }

  /**
   * After the DJ leaves, the DJ is a human still in the channel whenever
   * one is left, and is unchanged otherwise.
   */
  lemma DjLeavingHandsOver(reg: Players, g: GuildId, dj: Member, voice: seq<Member>)
    requires g in reg && Connected(reg[g]) && !dj.bot && dj.id == reg[g].dj
    ensures var r := OnVoiceStateUpdate(reg, g, dj, None, voice);
            && g in r
            && ((exists i :: 0 <= i < |voice| && !voice[i].bot) ==> InChannel(r[g].dj, voice))
            && ((forall i :: 0 <= i < |voice| ==> voice[i].bot) ==> r[g] == reg[g])
  {
    var r := OnVoiceStateUpdate(reg, g, dj, None, voice);
    if exists i :: 0 <= i < |voice| && !voice[i].bot {
      var i :| 0 <= i < |voice| && !voice[i].bot;
      assert Eligible(voice[i], None);
    }
  }

  /** Nothing but the updated guild's entry ever changes. */
  lemma VoiceUpdateIsLocal(reg: Players, g: GuildId, member: Member, after: Option<ChannelId>,
                           voice: seq<Member>, other: GuildId)
    requires other != g && other in reg
    ensures var r := OnVoiceStateUpdate(reg, g, member, after, voice);
            other in r && r[other] == reg[other]
  {
  }
}

=== FILE: scenarios.dfy ===
/** Concrete runs of the player, each following the code path by path. */
module Scenarios {

  import opened Wrappers
  import opened Votes
  import opened Members
  import opened Session
  import opened Commands
  import opened Registry
  import Volume

  /** A connected player in voice channel 7 whose DJ is user 1, idle. */
  function Idle(): (p: Player)
    ensures Connected(p) && !Playing(p) && !p.waiting && p.queue == [] && p.dj == 1 && !p.paused
  {
    NewPlayer(1, 2).(channel := Some(7))
  }

  /**
   * Five members in voice and two listeners who are not privileged: one
   * pause vote is recorded without pausing, the second distinct voter's
   * vote pauses the player and clears the pause votes.
   */
  lemma PauseNeedsTwoOfFive(p: Player, voice: seq<Member>, u1: UserId, u2: UserId)
    requires Connected(p) && !p.paused && p.ballots.pause == {}
    requires |voice| == 5 && u1 != u2 && u1 != p.dj && u2 != p.dj
    ensures var first := Commands.Pause(p, Caller(u1, false), voice);
            && first.Continue? && first.effects == [] && !first.player.paused
            && first.player.ballots.pause == {u1}
            && var second := Commands.Pause(first.player, Caller(u2, false), voice);
               && second.Continue? && second.effects == [SetPause(true)] && second.player.paused
               && second.player.ballots.pause == {}
  {
    RequiredFive(Action.Pause);
    var first := Commands.Pause(p, Caller(u1, false), voice);
    assert |{} + {u1}| == 1;
    assert |{u1} + {u2}| == 2;
  }

  /** With three members in voice, one non-privileged stop vote does not stop the player. */
  lemma StopNeedsTwoOfThree(p: Player, voice: seq<Member>, u: UserId)
    requires Connected(p) && p.ballots.stop == {} && |voice| == 3 && u != p.dj
    ensures Required(3, Action.Stop) == 2 && Required(3, Action.Pause) == 1
    ensures Commands.Stop(p, Caller(u, false), voice).Continue?
  {
    assert |{} + {u}| == 1;
  }

  /**
   * The DJ skips X while Y and Z are queued: the node is told to stop X and
   * the skip votes are empty; X's end event then starts Y with all votes
   * cleared and Z still queued.
   */
  lemma PrivilegedSkip(x: Track, y: Track, z: Track, voice: seq<Member>)
    ensures var p := Idle().(current := Some(x), queue := [y, z]);
            var skipped := Commands.Skip(p, Caller(1, false), voice);
            && skipped.Continue? && skipped.effects == [StopTrack]
            && skipped.player.ballots.skip == {}
            && var next := OnTrackEnd(skipped.player);
               && next.Continue?
               && next.player.current == Some(y) && next.player.queue == [z]
               && AllEmpty(next.player.ballots)
               && next.effects == [StartTrack(y), RefreshController]
  {
  }

  /** A single track requested on an idle connected player starts at once. */
  lemma PlayOnIdleStarts(p: Player, u: Caller, h: nat)
    requires Connected(p) && !Playing(p) && !p.waiting && p.queue == []
    ensures var o := Play(p, u, None, "", Tracks([h]));
            && o.Continue? && o.player.current == Some(Track(h, u.id))
            && o.player.queue == [] && !o.player.waiting && Playing(o.player)
  {
    assert Queued(Tracks([h]), u.id) == [Track(h, u.id)];
    var q := p.(queue := [Track(h, u.id)]);
    assert !Playing(q) && !q.waiting;
  }

  /** A single track requested while another plays joins the back of the queue. */
  lemma PlayWhilePlayingQueues(p: Player, u: Caller, h: nat)
    requires Playing(p)
    ensures var o := Play(p, u, None, "", Tracks([h]));
            o.Continue? && o.player == p.(queue := p.queue + [Track(h, u.id)])
  {
    assert Queued(Tracks([h]), u.id) == [Track(h, u.id)];
  }

  /**
   * Three tracks requested one after another on an idle player play in
   * request order: A starts at once, B and C wait, and each end event
   * starts the next.
   */
  lemma RequestOrderIsPlayOrder(p: Player, u: Caller, a: nat, b: nat, c: nat)
    requires Connected(p) && !Playing(p) && !p.waiting && p.queue == []
    ensures var s1 := Play(p, u, None, "", Tracks([a])).player;
            var s2 := Play(s1, u, None, "", Tracks([b])).player;
            var s3 := Play(s2, u, None, "", Tracks([c])).player;
            var e1 := OnTrackEnd(s3).player;
            var e2 := OnTrackEnd(e1).player;
            && s1.current == Some(Track(a, u.id))
            && s3.queue == [Track(b, u.id), Track(c, u.id)]
            && e1.current == Some(Track(b, u.id))
            && e2.current == Some(Track(c, u.id)) && e2.queue == []
  {
    PlayOnIdleStarts(p, u, a);
    var s1 := Play(p, u, None, "", Tracks([a])).player;
    PlayWhilePlayingQueues(s1, u, b);
    var s2 := Play(s1, u, None, "", Tracks([b])).player;
    PlayWhilePlayingQueues(s2, u, c);
    var s3 := Play(s2, u, None, "", Tracks([c])).player;
    assert s3.queue == [Track(b, u.id), Track(c, u.id)];
    var e1 := OnTrackEnd(s3).player;
    assert e1.queue == [Track(c, u.id)] && !e1.waiting && Connected(e1);
  }

  /**
   * The queue runs dry and the wait for the next track times out: the
   * player is torn down and leaves the registry, and the next command in
   * the guild builds a fresh player with its author as DJ and full volume.
   */
  lemma IdleTimeoutStartsAfresh(reg: Players, g: GuildId, author: UserId, home: ChannelId)
    requires g in reg && Connected(reg[g]) && !Playing(reg[g]) && !reg[g].waiting && reg[g].queue == []
    ensures var o := DoNext(reg[g], true);
            && o.TornDown?
            && g !in Apply(reg, g, o)
            && GetOrCreate(Apply(reg, g, o), g, author, home).1 == NewPlayer(author, home)
            && GetOrCreate(Apply(reg, g, o), g, author, home).1.volume == Volume.MaxVolume
  {
  }

  /** The volume command rejects 0 and 101 and accepts 1 and 100, for the DJ. */
  lemma VolumeEdges(p: Player)
    requires Connected(p)
    ensures var dj := Caller(p.dj, false);
            && Commands.SetVolume(p, dj, 0) == Declined(OutOfRange)
            && Commands.SetVolume(p, dj, 101) == Declined(OutOfRange)
            && Commands.SetVolume(p, dj, 1) == Continue(p.(volume := 1), [Session.SetVolume(1)])
            && Commands.SetVolume(p, dj, 100) == Continue(p.(volume := 100), [Session.SetVolume(100)])
  {
  }
}

=== FILE: session.dfy ===
/**
 * The per-guild player (`Player` in cogs/Music.py): its state record, the
 * observable calls it makes on the audio node and the chat, and the queue
 * advance `do_next` with the `teardown` it falls back to.
 *
 * Each handler runs as one atomic step, a pure function from the state
 * before it to an Outcome; a `do_next` suspended on an empty queue resumes
 * in a step of its own.
 */
module Session {

  import opened Wrappers
  import opened Members
  import opened Votes
  import Volume
  import Equalizer

  type ChannelId = nat
  type MessageId = nat

  /** A queued or playing track; only its identity and requester matter here. */
  datatype Track = Track(handle: nat, requester: UserId)

  datatype Player = Player(
    home: ChannelId,                 // text channel of the context the player was created from
    dj: UserId,
    channel: Option<ChannelId>,      // bound voice channel, None while disconnected
    current: Option<Track>,
    paused: bool,
    queue: seq<Track>,
    controller: Option<MessageId>,   // message of the live controller, if any
    waiting: bool,
    updating: bool,
    volume: int,
    preset: Equalizer.Preset,
    ballots: Ballots)

  /** Calls into the audio node and the chat that a step issues, in order. */
  datatype Effect =
    | JoinVoice(channel: ChannelId)
    | SearchTracks(query: string)
    | StartTrack(track: Track)
    | SetPause(pause: bool)
    | StopTrack
    | SetVolume(volume: int)
    | SetPreset(preset: Equalizer.Preset)
    | RefreshController
    | PostController(message: MessageId)
    | DeleteController(message: MessageId)
    | EditController(message: MessageId)
    | Destroy

  /** Why a command left the player exactly as it was. */
  datatype Reason =
    | NotConnected
    | Inapplicable       // pause while paused, resume while not paused
    | NotPrivileged
    | OutOfRange
    | UnknownPreset
    | QueueTooShort
    | NotInVoice
    | AlreadyDj
    | TooFewMembers
    | NoChannel          // NoChannelProvided
    | WrongChannel       // IncorrectChannelError
    | Aborted            // the source raises before changing anything

  datatype Outcome =
    | Continue(player: Player, effects: seq<Effect>)
    | Declined(reason: Reason)
    | TornDown(effects: seq<Effect>)

  /** `is_connected`: the player is bound to a voice channel. */
  predicate Connected(p: Player) {
    p.channel.Some?
  }

  /** `is_playing`: connected with a current track. */
  predicate Playing(p: Player) {
    Connected(p) && p.current.Some?
  }

  /** The volume stays in the range the commands can set. */
  predicate Valid(p: Player) {
    Volume.MinVolume <= p.volume <= Volume.MaxVolume
  }

  /** `Player.__init__` with a context: its author is the first DJ. */
  function NewPlayer(author: UserId, home: ChannelId): (p: Player)
    ensures Valid(p) && !Connected(p) && !Playing(p)
    ensures p.dj == author && p.queue == [] && AllEmpty(p.ballots)
    ensures !p.waiting && !p.updating && p.controller.None?
    ensures p.home == home && p.current.None? && !p.paused
    ensures p.volume == Volume.MaxVolume && p.preset == Equalizer.Flat
  {
    NoBallotsEmpty();
    Player(home, author, None, None, false, [], None, false, false,
           Volume.MaxVolume, Equalizer.Flat, NoBallots)
  }

  /**
   * `teardown`, as intended: delete the controller message if there is one,
   * then destroy the player, which disconnects it and drops it from the
   * node's registry.
   */
  function Teardown(p: Player): (o: Outcome)
    ensures o.TornDown? && |o.effects| > 0 && o.effects[|o.effects| - 1] == Destroy
    ensures forall m: MessageId :: DeleteController(m) in o.effects <==> p.controller == Some(m)
  {
    match p.controller
    case Some(m) => TornDown([DeleteController(m), Destroy])
    case None => TornDown([Destroy])
  }

  /**
   * `teardown` as written: `self.controller.message` is read before
   * anything else, so with no controller the AttributeError ends the step
   * and `destroy` is never reached.
   */
  function TeardownAsWritten(p: Player): (o: Outcome)
    ensures p.controller.Some? ==> o == Teardown(p)
    ensures p.controller.None? ==> o == Declined(Aborted)
  {
    if p.controller.None? then Declined(Aborted) else Teardown(p)
  }

  /**
   * A DJ who connects and stops before any track has played: the as-written
   * teardown leaves the player in place, the corrected one removes it.
   */
  lemma TeardownWithoutController()
    ensures var p := NewPlayer(1, 2).(channel := Some(3));
            Connected(p) && TeardownAsWritten(p).Declined? && Teardown(p).TornDown?
  {
  }

  /** Clears the five vote sets, as a new track is about to start. */
  function ClearBallots(p: Player): (q: Player)
    ensures AllEmpty(q.ballots)
    ensures q == p.(ballots := q.ballots)
  {
    NoBallotsEmpty();
    p.(ballots := NoBallots)
  }

  /**
   * The `queue.get()` inside the 300-second timeout, once `waiting` is set.
   * An item already queued is taken at once (no timeout can fire); an empty
   * queue either times out, which tears the player down, or keeps the
   * player suspended with `waiting` still set until a track is put.
   */
  function AwaitNext(p: Player, timedOut: bool): (o: Outcome)
    ensures |p.queue| > 0 ==>
      && o.Continue?
      && o.player.current == Some(p.queue[0])
      && o.player.queue == p.queue[1..]
      && !o.player.waiting
      && o.effects == [StartTrack(p.queue[0]), RefreshController]
      && o.player.ballots == p.ballots
    ensures |p.queue| > 0 ==>
      o.player == p.(current := o.player.current, queue := o.player.queue, waiting := false)
    ensures |p.queue| == 0 && timedOut ==> o == Teardown(p)
    ensures |p.queue| == 0 && !timedOut ==> o == Continue(p, [])
  {
    if |p.queue| > 0 then
      var next := p.queue[0];
      Continue(p.(current := Some(next), queue := p.queue[1..], waiting := false),
               [StartTrack(next), RefreshController])
    else if timedOut then Teardown(p)
    else Continue(p, [])
  }

  /**
   * `do_next`: nothing while a track plays or another call already waits;
   * otherwise the votes are cleared and the queue is awaited.
   */
  function DoNext(p: Player, timedOut: bool): (o: Outcome)
    ensures !o.Declined? && (!timedOut ==> o.Continue?)
    ensures o.Continue? ==> o.player.volume == p.volume && o.player.dj == p.dj && o.player.channel == p.channel
    ensures Playing(p) || p.waiting ==> o == Continue(p, [])
    ensures !Playing(p) && !p.waiting ==>
      && (o.Continue? ==> AllEmpty(o.player.ballots))
      && (|p.queue| > 0 ==> o.Continue? && o.player.current == Some(p.queue[0]) && o.player.queue == p.queue[1..])
      && (|p.queue| == 0 ==> (o.TornDown? <==> timedOut))
      && (|p.queue| == 0 && !timedOut ==> o.Continue? && o.player.waiting && o.player.queue == [] && o.effects == [])
    ensures !Playing(p) && !p.waiting && |p.queue| > 0 ==>
      o == Continue(p.(current := Some(p.queue[0]), queue := p.queue[1..], ballots := o.player.ballots),
                    [StartTrack(p.queue[0]), RefreshController])
    ensures !Playing(p) && !p.waiting && |p.queue| == 0 && timedOut ==> o == Teardown(p)
    ensures !Playing(p) && !p.waiting && |p.queue| == 0 && !timedOut ==>
      o.player == p.(waiting := true, ballots := o.player.ballots)
  {
    if Playing(p) || p.waiting then Continue(p, [])
    else AwaitNext(ClearBallots(p).(waiting := true), timedOut)
  }

  /**
   * `on_player_stop`: a track ended, got stuck or failed. The node has
   * already dropped the current track; all three causes advance the queue.
   */
  function OnTrackEnd(p: Player): (o: Outcome)
    ensures !p.waiting && Connected(p) && |p.queue| > 0 ==>
      && o.Continue?
      && o.player.current == Some(p.queue[0])
      && o.player.queue == p.queue[1..]
      && AllEmpty(o.player.ballots)
      && StartTrack(p.queue[0]) in o.effects
    ensures p.waiting ==> o == Continue(p.(current := None), [])
    ensures !p.waiting && |p.queue| > 0 ==>
      && o.Continue?
      && o == Continue(p.(current := Some(p.queue[0]), queue := p.queue[1..], ballots := o.player.ballots),
                       [StartTrack(p.queue[0]), RefreshController])
    ensures !p.waiting && |p.queue| == 0 ==>
      && o.Continue? && o.effects == [] && AllEmpty(o.player.ballots)
      && o.player == p.(current := None, waiting := true, ballots := o.player.ballots)
    ensures !o.TornDown?
  {
    DoNext(p.(current := None), false)
  }

}

=== FILE: shuffle.dfy ===
/**
 * `random.shuffle` on the player's queue. The random draws are an input:
 * `draw(i)` stands for the value `randbelow` returns when position i is
 * filled, reduced into 0..i.
 */
module Shuffle {

  /** Exchanges the elements at positions i and j. */
  function Swap<T>(q: seq<T>, i: nat, j: nat): (r: seq<T>)
    requires i < |q| && j < |q|
    ensures |r| == |q|
    ensures multiset(r) == multiset(q)
  {
    q[i := q[j]][j := q[i]]
  }

  /**
   * The Fisher-Yates loop of `random.shuffle`: for i from `last` down to 1,
   * swap position i with a drawn position in 0..i.
   */
  function FisherYates<T>(q: seq<T>, last: nat, draw: nat -> nat): (r: seq<T>)
    requires last < |q|
    ensures |r| == |q|
    ensures multiset(r) == multiset(q)
    decreases last
  {
    if last == 0 then q
    else FisherYates(Swap(q, last, draw(last) % (last + 1)), last - 1, draw)
  }

  /** The shuffled queue: a permutation of the queue, whatever the draws. */
  function Shuffled<T>(q: seq<T>, draw: nat -> nat): (r: seq<T>)
    ensures |r| == |q|
    ensures multiset(r) == multiset(q)
  {
    if |q| < 2 then q else FisherYates(q, |q| - 1, draw)
  }
}

=== FILE: volume.dfy ===
/**
 * Volume arithmetic of the player: the range accepted by the `volume`
 * command and the ten-point steps of the +/- controller buttons.
 */
module Volume {

  import Arith

  const MinVolume: int := 0
  const MaxVolume: int := 100

  /** `0 < vol < 101`: the values the `volume` command accepts. */
  predicate Accepted(vol: int) {
    0 < vol < 101
  }

  lemma AcceptedBounds()
    ensures !Accepted(0) && Accepted(1) && Accepted(100) && !Accepted(101)
  {
  }

  /** `vol_up`: the least multiple of ten not below v + 10, capped at 100. */
  function StepUp(v: int): (r: int)
    ensures r <= MaxVolume
    ensures v + 10 < MaxVolume ==> r % 10 == 0 && v + 10 <= r < v + 20
    ensures v + 10 >= MaxVolume ==> r == MaxVolume
    ensures MinVolume <= v <= MaxVolume ==> MinVolume <= r && r % 10 == 0
  {
    var stepped := Arith.CeilDiv(v + 10, 10) * 10;
    if stepped > MaxVolume then MaxVolume else stepped
  }

  /** `vol_down`: the least multiple of ten not below v - 10, floored at 0. */
  function StepDown(v: int): (r: int)
    ensures r >= MinVolume
    ensures v > 10 ==> r % 10 == 0 && v - 10 <= r < v
    ensures v <= 10 ==> r == MinVolume
    ensures MinVolume <= v <= MaxVolume ==> r <= MaxVolume && r % 10 == 0
  {
    var stepped := Arith.CeilDiv(v - 10, 10) * 10;
    if stepped < MinVolume then MinVolume else stepped
  }

  /** On the ten-point grid below the cap, one step down undoes one step up. */
  lemma StepDownUndoesStepUp(v: int)
    requires MinVolume <= v < MaxVolume && v % 10 == 0
    ensures StepUp(v) == v + 10
    ensures StepDown(StepUp(v)) == v
  {
  }

  /** On the ten-point grid above the floor, one step up undoes one step down. */
  lemma StepUpUndoesStepDown(v: int)
    requires MinVolume < v <= MaxVolume && v % 10 == 0
    ensures StepDown(v) == v - 10
    ensures StepUp(StepDown(v)) == v
  {
  }
}

=== FILE: votes.dfy ===
/**
 * The vote gate shared by the pause, resume, skip, shuffle and stop
 * commands: one set of voters per action, a quorum computed from the size
 * of the bound voice channel, and a bypass for privileged callers.
 */
module Votes {

  import opened Members
  import opened Arith

  datatype Action = Pause | Resume | Skip | Shuffle | Stop

  /** The player's five vote sets (`pause_votes` … `stop_votes`). */
  datatype Ballots = Ballots(
    pause: set<UserId>,
    resume: set<UserId>,
    skip: set<UserId>,
    shuffle: set<UserId>,
    stop: set<UserId>)
  {
    function Get(a: Action): set<UserId> {
      match a
      case Pause => pause
      case Resume => resume
      case Skip => skip
      case Shuffle => shuffle
      case Stop => stop
    }

    /** Replaces the voters of one action; the other four are untouched. */
    function Put(a: Action, voters: set<UserId>): (b: Ballots)
      ensures b.Get(a) == voters
      ensures forall other :: other != a ==> b.Get(other) == Get(other)
    {
      match a
      case Pause => this.(pause := voters)
      case Resume => this.(resume := voters)
      case Skip => this.(skip := voters)
      case Shuffle => this.(shuffle := voters)
      case Stop => this.(stop := voters)
    }
  }

  const NoBallots: Ballots := Ballots({}, {}, {}, {}, {})

  predicate AllEmpty(b: Ballots) {
    forall a :: b.Get(a) == {}
  }

  lemma NoBallotsEmpty()
    ensures AllEmpty(NoBallots)
  {
    forall a ensures NoBallots.Get(a) == {} {
      match a
      case Pause =>
      case Resume =>
      case Skip =>
      case Shuffle =>
      case Stop =>
    }
  }

  /**
   * `required`: ceil((n - 1) / 2.5) for a voice channel of n members (bots
   * included), except that a stop vote in a channel of exactly three members
   * needs two voters.
   */
  function Required(members: nat, a: Action): (r: nat)
    ensures a == Stop && members == 3 ==> r == 2
    ensures !(a == Stop && members == 3) ==> 2 * (members - 1) <= 5 * r < 2 * (members - 1) + 5
  {
    var general := CeilDiv(2 * (members - 1), 5);
    if a == Stop && members - 1 == 2 then 2 else general
  }

  /** The quorum never exceeds the number of other members in the channel. */
  lemma RequiredAtMostOthers(members: nat, a: Action)
    requires members >= 2
    ensures Required(members, a) <= members - 1
  {
  }

  /** Five members: two votes are needed for any action. */
  lemma RequiredFive(a: Action)
    ensures Required(5, a) == 2
  {
  }

  /** What the gate decided: whether the action runs, and the voters left. */
  datatype Gate = Gate(fires: bool, voters: set<UserId>)

  /**
   * One call of a gated command. A privileged caller runs the action and the
   * action's votes are cleared. Anyone else is added to the voters; the
   * action runs once the voters reach the quorum, which clears them.
   */
  function CastVote(voters: set<UserId>, caller: UserId, privileged: bool, required: nat): (g: Gate)
    ensures g.fires ==> g.voters == {}
    ensures !g.fires ==> !privileged && g.voters == voters + {caller} && |g.voters| < required
  {
    if privileged then Gate(true, {})
    else
      var counted := voters + {caller};
      if |counted| >= required then Gate(true, {}) else Gate(false, counted)
  }

  /** Voting again without the gate firing changes nothing. */
  lemma RepeatVoteIsIdle(voters: set<UserId>, caller: UserId, required: nat)
    requires !CastVote(voters, caller, false, required).fires
    ensures CastVote(CastVote(voters, caller, false, required).voters, caller, false, required)
         == CastVote(voters, caller, false, required)
  {
    var once := voters + {caller};
    assert once + {caller} == once;
  }

  /** A vote raises the count by at most one, and a fresh voter by exactly one. */
  lemma VoteCountsOnce(voters: set<UserId>, caller: UserId, required: nat)
    requires !CastVote(voters, caller, false, required).fires
    ensures |CastVote(voters, caller, false, required).voters| == |voters| + (if caller in voters then 0 else 1)
  {
    if caller in voters {
      assert voters + {caller} == voters;
    }
  }

  /**
   * The gate fires for a non-privileged caller exactly when the caller plus
   * the earlier voters reach the quorum.
   */
  lemma FiresAtQuorum(voters: set<UserId>, caller: UserId, required: nat)
    ensures CastVote(voters, caller, false, required).fires <==> |voters + {caller}| >= required
  {
  }
}

=== FILE: wrappers.dfy ===
/** Optional values, used wherever the source holds `None` or a value. */
module Wrappers {

  datatype Option<+T> = None | Some(value: T) {

    /** Returns the value held in Some, or `default` when None. */
    function GetOr(default: T): T {
      match this
      case Some(v) => v
      case None => default
    }
  }
}
